=== FILE: README.md ===
# Hdf5Array: a verified model of nifty's hyperslab accessor

`nifty::hdf5::Hdf5Array<T>` is a read-only accessor for one dataset of an
HDF5 file. When it is built, it opens the dataset and its element-type
handle. It then resolves the shape it exposes. That shape is the on-disk
extents, or their reversal when the dataset carries the reverse-shape
marker attribute. `subarray(origin, out)` reads the rectangular region
(hyperslab) at `origin` with the extents of the destination view `out`.
It first checks the destination's rank and coordinate order. It then
selects the region on disk and in memory and reads it in one transfer.
A destination that is not contiguous ("simple") is not read into at all:
it is assigned a fresh, uninitialised array of the region's extents, so
its cells receive indeterminate values. The binding for the scripting language adds
`ndim`, `shape` and a `subarray(roiBegin, roiEnd)` that takes two corner
points.

The HDF5 library is replaced by an abstract backing store
(`backing_store.dfy`):

- a group maps names to datasets;
- a dataset is its on-disk extents (`seq<nat>`, each below 2^64), the
  reverse-marker flag, and its contents in row-major (C) order;
- the library's handle table is a set of open handle ids, and only an
  open handle can be closed;
- the outcome of each call whose internals are not visible comes from an
  `Oracle` value: the type comparison, the extent query, the two
  selections and the read;
- the read fails when a non-empty region leaves the dataset's extents; the
  library checks this when it reads, not when the selection is made. A
  region with a zero extent selects nothing and is read wherever it lies.

Files:

- `layout.dfy` (module `Layout`): row-major addressing. It defines
  `Product`, `Flatten`/`Unflatten` with their round trips, and `Slab`, the
  row-major contents of a region of a larger array.
- `failures.dfy` (module `Failures`): the error kinds and the
  `Result`/`Outcome` types.
- `backing_store.dfy` (module `BackingStore`): `Dataset`, `Oracle` and the
  `Store` class.
- `marray_view.dfy` (module `MarrayView`): the destination view. It holds
  a shape, a coordinate order, a simple flag, an array of storage, the
  offset in that storage where the view starts, and the storage index of
  each of its cells. A simple view's cells are one unbroken run of its
  storage, which may be a window into a larger array.
- `hdf5_array.dfy` (module `Hdf5`): the `Hdf5Array` class, construction,
  shape resolution, `subarray`/`loadHyperslab` and the destructor.
- `hdf5_binding.dfy` (module `Hdf5Binding`): the binding's `ndim`, `shape`
  and `subarray` lambda.

The C++ constructor can throw, and a Dafny constructor cannot fail. So the
constructor is modelled by the method `Hdf5.Open`, which returns a
`Result`. The Dafny constructor of `Hdf5Array` only binds the fields. The
destructor becomes `Hdf5Array.Destroy`.

## Model

| member | source | states |
|---|---|---|
| `Hdf5.Open` | include/nifty/hdf5/hdf5_array.hxx:23-43 | A missing dataset fails with `OpenError` and opens nothing. When the type comparison as written reports inequality (`typeMatches` false) the result is `TypeMismatch`, and a failed extent query gives `ExtentQueryError`; both leave two more handles open. Success happens exactly when the name exists and both checks pass. It yields a fresh, valid accessor whose rank is the on-disk rank, and it opens exactly two handles, the dataset and type handles, neither of which was open before. |
| `Hdf5.OpenReleasing` | include/nifty/hdf5/hdf5_array.hxx:23-43 | Corrected construction: the same outcomes as `Open`, but every failure leaves the set of open handles exactly as it was. |
| `Hdf5.ExtentQueryLeaks` | include/nifty/hdf5/hdf5_array.hxx:36-42 | Concrete case: a 2 x 3 dataset whose extent query fails in `loadShape` leaves exactly two handles open after the failed construction. |
| `Hdf5.ExtentQueryReleases` | include/nifty/hdf5/hdf5_array.hxx:36-42 | The same failure through the corrected construction leaves no handle open. |
| `Hdf5.OpenThenDestroy` | include/nifty/hdf5/hdf5_array.hxx:23-48 | Construction succeeds exactly when the name exists and both checks pass, and then destroying the accessor leaves the open handles exactly as they were before construction. |
| `Hdf5.Hdf5Array.Destroy` | include/nifty/hdf5/hdf5_array.hxx:45-48 | Closes the type and dataset handles, each exactly once. Both must be open, so there is no double close. The open count drops by exactly two, and nothing else is closed. |
| `Hdf5.Hdf5Array.Dimension` | include/nifty/hdf5/hdf5_array.hxx:50-52 | `dimension()` equals the on-disk rank. |
| `Hdf5.Hdf5Array.ShapeAt` | include/nifty/hdf5/hdf5_array.hxx:53-55 | `shape(d)` is on-disk extent `d`, or on-disk extent `rank-1-d` under the reverse marker. The source does not check `d`, so the model requires `d < rank`. |
| `Hdf5.Hdf5Array.Shape` | include/nifty/hdf5/hdf5_array.hxx:57-59 | `shape()` has the on-disk rank. It equals the extents without the marker. With the marker it is their reversal, and reversing it gives the extents back. |
| `Hdf5.Hdf5Array.Subarray` | include/nifty/hdf5/hdf5_array.hxx:61-71 | A rank mismatch fails with `DimensionMismatch`; otherwise a destination that is not first-major fails with `UnsupportedOrder`. These checks, and the reverse-marker rejection, change neither the store nor the destination. A refused disk selection fails with `SelectionError`, and a refused memory selection fails with `MemSelectionError`; neither touches the destination. For a simple destination the result is `Pass` exactly when the read succeeds, which needs the region to be empty or to lie inside the dataset, and then every cell `c` of the destination lies over dataset element `origin + c` and holds it; a simple destination may be a window into larger storage, and its run is filled in row-major order. A non-simple destination always passes, even for a region outside the dataset, because no read is issued: it keeps its storage, shape and order, its cells get unspecified contents. On every path, storage outside the destination's cells is unchanged. The set of open handles is the same afterwards on every path the model covers. |
| `Hdf5.Hdf5Array.LoadHyperslab` | include/nifty/hdf5/hdf5_array.hxx:75-145 | A dataset with the reverse marker is rejected before any handle is opened. The same selection, read and assignment outcomes as `Subarray` hold, with the region taken at `base` in the destination's own axis order; storage outside the destination's cells is unchanged on every path. The dataspace and memspace are closed on the selection-failure, read-failure and success paths. |
| `Hdf5.CopyRegion` | include/nifty/hdf5/hdf5_array.hxx:96-102 | The on-disk offset is the origin and the slab and memory extents are the destination's extents, all in the same axis order: no reversal is applied. |
| `Hdf5.Hdf5Array.LoadShape` | include/nifty/hdf5/hdf5_array.hxx:148-178 | The filespace handle is closed on both paths, so the open handles are unchanged. It succeeds exactly when the extent query does. On success `shape_` is the exposed shape of the on-disk extents; on failure `shape_` is untouched. |
| `Hdf5.ResolveShape` | include/nifty/hdf5/hdf5_array.hxx:163-173 | The indexed loops produce the extents unchanged, or with the reverse marker their reversal, `shape_[rank-1-j] = extent[j]`. |
| `Hdf5.ReverseAt` | include/nifty/hdf5/hdf5_array.hxx:164-168 | Axis `k` of the reversed extents is on-disk axis `rank-1-k`. |
| `Hdf5.ReverseTwice` | include/nifty/hdf5/hdf5_array.hxx:164-168 | Reversing the axis order twice gives the on-disk extents back. |
| `Hdf5.ExposedShapeAt` | include/nifty/hdf5/hdf5_array.hxx:164-173 | The exposed shape has the on-disk rank, and axis `d` is on-disk axis `d`, or `rank-1-d` under the marker. |
| `Hdf5.ExposedShapeAll` | include/nifty/hdf5/hdf5_array.hxx:164-173 | The same property for every axis at once. |
| `BackingStore.Store.OpenDataset` | include/nifty/hdf5/hdf5_array.hxx:30-33 | Opening by name succeeds exactly when the group holds the name. It then opens one new handle; otherwise nothing is opened. |
| `BackingStore.Read` | include/nifty/hdf5/hdf5_array.hxx:128-130 | The read succeeds exactly when the library does not fail and the region is empty or lies inside the dataset's extents. A region inside the extents then fills the run of the buffer that begins at the destination's offset, in row-major order. Nothing outside that run is written, on any path. |
| `Hdf5.Transfer` | include/nifty/hdf5/hdf5_array.hxx:128-136 | A simple destination's run (at `&out(0)`) is filled by one read, and the step succeeds exactly when the read does; the run then holds the region in row-major order. Any other destination is assigned a fresh uninitialised array of the slab's extents. No read is issued for it, so it always succeeds. Either way the destination keeps its storage, and storage outside its cells is unchanged. |
| `MarrayView.View.RunIsCells` | include/nifty/hdf5/hdf5_array.hxx:128-130 | Every storage index in the run of a simple first-major view is one of its cells, so a read that writes only the run writes only the view's cells. |
| `Hdf5.FilledCells` | include/nifty/hdf5/hdf5_array.hxx:128-130 | When the run of a simple first-major destination holds a readable region, each cell `c` of the destination lies over dataset element `base + c` and holds it; an empty region has no cells. |
| `MarrayView.View.Assign` | include/nifty/hdf5/hdf5_array.hxx:132-136 | `out = tmpOut` on a view that has storage: the view keeps its storage, shape and order; cell `c` of the view receives cell `c` of the source; storage outside the view's cells is untouched. |
| `Layout.ProductZero` | include/nifty/hdf5/hdf5_array.hxx:106-130 | A region has no cells exactly when one of its extents is zero, which is when the hyperslab selects nothing. |
| `Layout.InBoxNonEmpty` | include/nifty/hdf5/hdf5_array.hxx:128-130 | A region that holds a coordinate has at least one cell, so a destination cell exists only for a non-empty read. |
| `Layout.FlattenInRange` | include/nifty/hdf5/hdf5_array.hxx:128-130 | A coordinate inside a shape has a row-major index below the number of cells. |
| `Layout.UnflattenThenFlatten` | include/nifty/hdf5/hdf5_array.hxx:128-130 | Every row-major index of a shape names a coordinate inside it, and flattening that coordinate gives the index back. |
| `Layout.FlattenThenUnflatten` | include/nifty/hdf5/hdf5_array.hxx:128-130 | Row-major indexing is injective on a shape: unflattening a coordinate's index gives the coordinate back. |
| `Layout.SlabAt` | include/nifty/hdf5/hdf5_array.hxx:106-130 | Cell `c` of the region at `origin` holds element `origin + c` of the dataset, and that element lies inside the dataset. |
| `Layout.WholeSlab` | include/nifty/hdf5/hdf5_array.hxx:106-130 | The region at the zero origin spanning the full extents is the dataset's whole contents, unchanged. |
| `Hdf5Binding.Ndim` | src/python/lib/hdf5/hdf5_array.cxx:23 | `ndim` is the on-disk rank. |
| `Hdf5Binding.ShapeProperty` | src/python/lib/hdf5/hdf5_array.cxx:24-26 | `shape` is, axis for axis, the on-disk extent, or the mirrored on-disk extent under the reverse marker. |
| `Hdf5Binding.RegionShape` | src/python/lib/hdf5/hdf5_array.cxx:36-38 | `shape[d]` is the exact difference `roiEnd[d] - roiBegin[d]` when the end is not below the begin. Otherwise it is the difference wrapped modulo 2^64, so `roiBegin[d] + shape[d] = roiEnd[d] + 2^64`. |
| `Hdf5Binding.EndpointsFit` | src/python/lib/hdf5/hdf5_array.cxx:36-41 | The computed region fits the dataset exactly when every end is at least its begin and at most the extent. A wrapped extent always runs past the dataset, so the read of a non-empty region with one fails. |
| `Hdf5Binding.EmptyRegion` | src/python/lib/hdf5/hdf5_array.cxx:36-38 | The computed region has no cells exactly when some end equals its begin; a wrapped extent is never zero. |
| `Hdf5Binding.EmptyRegionOutside` | src/python/lib/hdf5/hdf5_array.cxx:27-43 | Concrete case: `subarray([7], [7])` on a dataset of extent 5 succeeds with an empty array. |
| `Hdf5Binding.Subarray` | src/python/lib/hdf5/hdf5_array.cxx:27-43 | A `roiBegin` of the wrong length fails with `BeginSizeMismatch`; otherwise a `roiEnd` of the wrong length fails with `EndSizeMismatch`. An end below its begin fails unless some other axis is empty. The call succeeds exactly when the sizes match, there is no reverse marker, either some `roiBegin[d] == roiEnd[d]` (an empty region) or every `roiBegin[d] <= roiEnd[d] <= extent[d]`, and both selections and the read succeed. The result is then a fresh simple array, owning exactly its cells, of shape `roiEnd - roiBegin` (wrapped modulo 2^64 on an axis whose end is below its begin) whose cell `c` lies over dataset element `roiBegin + c` and holds it. The open handles are unchanged. |

## Left out

- The HDF5 library itself (`H5Dopen`, `H5Dget_type`, `H5Tequal`, `H5Dget_space`, `H5Sget_simple_extent_*`, `H5Aexists`, `H5Screate_simple`, `H5Sselect_hyperslab`, `H5Dread`, the close calls). It is replaced by the abstract store above, and its outcomes come from an oracle.
- `H5Dget_type`, `H5Dget_space` and `H5Screate_simple` are taken to always return a valid handle; a negative handle id from them is not modelled.
- The type check on line 37 passes `dataset_` rather than `datatype_` to `H5Tequal`. For a dataset id the library answers with a negative error value, whose negation is false, so as written the check does not throw. The model does not derive the library's answer: the oracle's `typeMatches` stands for the outcome of the comparison as written, and `TypeMismatch` is reachable only through it.
- `H5Aexists` returning an error value is folded into the marker flag, because the source treats it exactly like "absent" (`> 0`).
- The read fails whenever a non-empty region leaves the extents; any other reason HDF5 might have to refuse a selection or a read is part of the oracle. 64-bit overflow of `offset + count` inside HDF5 is not modelled.
- `HandleCheck`, `marray_detail::Assert` and the `groupHandle_ >= 0` assertion (lines 82, 144, 150-151, 177) are debug-only instrumentation. The `new[]`/`delete[]` of the extents buffer in `loadShape` is heap memory, not a store handle; it is freed on both paths and is not modelled.
- Heap allocation is taken to succeed. The source allocates after opening a store handle in three places, and a `std::bad_alloc` there would skip the closes:
- `Hdf5.Hdf5Array.LoadShape`: the `new hsize_t[...]` on line 155 comes after `filespace` is opened on line 153, so a throw there would leave the filespace open; the model does not promise that on that path.
- `Hdf5.Hdf5Array.LoadHyperslab`: the `offsetOut` vector on line 115 comes after `dataspace` and `memspace` are opened (lines 105 and 114), so a throw there would leave both open; the model does not promise that on that path.
- `Hdf5.Transfer`: the `SkipInitialization` Marray `tmpOut` on lines 133-134 is allocated while `dataspace` and `memspace` are open, so a throw there would leave both open; the model does not promise that on that path.
- marray internals (`isSimple`, `coordinateOrder`, `shapeBegin`, element access, assignment) are reduced to a simple flag, an order value, a shape, an array and the storage index of each cell (the offset and the storage indices stand for the view's data pointer and strides). Assignment to a view that has no storage yet, which marray rebinds instead of copying, is not modelled: a destination always has storage.
- `Hdf5.Transfer`: the values of the uninitialised `Marray` that a non-simple destination receives are indeterminate in C++; the model promises nothing about those cells.
- `BackingStore.Read`: nothing is promised about the buffer after a failed read, since the library may have written part of it.
- `Hdf5.Hdf5Array.Subarray` requires that `origin` supply at least `out.dimension()` values once the rank and order checks have passed, because line 70 then advances the iterator that far without a check; a call that fails either check does not touch `origin`.
- `Hdf5.Hdf5Array.ShapeAt` requires `d < dimension()`, because `shape_[d]` is unchecked in the source.
- `Hdf5Binding.Subarray`: the binding's conversion of its arguments to `size_t` is taken as given (the `u64` type). A numpy allocation failure for a huge wrapped extent is not modelled; allocation always succeeds. The array the source allocates is `PyView<uint64_t>`, and the only exported instantiation is `T = uint64_t`; the model keeps the element type generic.
- pybind11 registration, `PyView` and numpy plumbing, and the `py::init` binding of the constructor (it is `Hdf5.Open` itself).
- `include/nifty/graph/opt/lifted_multicut/proposal_generators/proposal_generator_factory_base.hxx` is a pure interface with no logic, and is not part of this model.
- There is no concurrency in the source; write support, chunking and compression are absent from it too.

## Findings

| source | as written | input that shows it | evidently intended | confidence | as-written member | corrected member |
|---|---|---|---|---|---|---|
| include/nifty/hdf5/hdf5_array.hxx:36-42 | When `loadShape` throws (or the type check reports inequality), the constructor throws after `dataset_` and `datatype_` were opened. C++ does not run the destructor of an object whose constructor threw, so both handles stay open. | An existing dataset whose extent query fails (lines 157-160, propagated at line 42): `ExtentQueryLeaks` shows two handles left open, and `ExtentQueryReleases` none for the corrected construction. | Close both handles before throwing, so a failed construction leaves the open handles as they were. | high; not executed | `Hdf5.Open` | `Hdf5.OpenReleasing` |

=== FILE: backing_store.dfy ===
/** An abstract stand-in for the HDF5 library as the accessor uses it: a
    group of named datasets (each its on-disk extents, the reverse-shape
    marker, and its contents in row-major order), the set of handles that
    are currently open, and an oracle that decides the outcome of each
    library call whose internals are not part of this model. */
module BackingStore {
  import opened Layout

  /** An `hid_t` that refers to an open object. */
  type Handle = nat

  /** A dataset on disk. `reversed` is the presence of the reverse-shape
      marker attribute. */
  datatype Dataset<T> = Dataset(extents: seq<nat>, reversed: bool, data: seq<T>)
  {
    /** Row-major contents of exactly the cells of the extents, each extent
        an `hsize_t`. */
    predicate Valid()
    {
      |data| == Product(extents) &&
      forall d :: 0 <= d < |extents| ==> extents[d] < TwoTo64
    }

    /** The element stored at coordinate `c` (in on-disk axis order). */
    function At(c: seq<nat>): T
      requires Valid() && InBox(c, extents)
    {
      FlattenInRange(c, extents);
      data[Flatten(c, extents)]
    }
  }

  /** The answers of the library calls whose outcome the model does not
      derive: the element-type comparison, the extent query, the on-disk
      and in-memory hyperslab selections and the bulk read. */
  datatype Oracle = Oracle(
    typeMatches: bool,
    extentsOk: bool,
    diskSelectOk: bool,
    memSelectOk: bool,
    readOk: bool)

  /** The open group and the library's handle table. */
  class Store<T> {
    const group: map<string, Dataset<T>>
    var open: set<Handle>
    var next: nat

    ghost predicate Valid()
      reads this
    {
      (forall h :: h in open ==> h < next) &&
      forall name :: name in group ==> group[name].Valid()
    }

    constructor (group: map<string, Dataset<T>>)
      requires forall name :: name in group ==> group[name].Valid()
      ensures Valid() && this.group == group && open == {}
    {
      this.group := group;
      open, next := {}, 0;
    }

    /** Open a new handle (`H5Dget_type`, `H5Dget_space`,
        `H5Screate_simple`). */
    method Acquire() returns (h: Handle)
      requires Valid()
      modifies this
      ensures Valid()
      ensures h !in old(open) && open == old(open) + {h}
      ensures |open| == |old(open)| + 1
    {
      h := next;
      open, next := open + {h}, next + 1;
    }

    /** Close an open handle (`H5Tclose`, `H5Dclose`, `H5Sclose`); only a
        handle that is open can be closed. */
    method Release(h: Handle)
      requires Valid() && h in open
      modifies this
      ensures Valid()
      ensures open == old(open) - {h}
      ensures |open| == |old(open)| - 1
    {
      open := open - {h};
    }

    /** `H5Dopen`: fails, opening nothing, when the group has no dataset of
        that name. */
    method OpenDataset(name: string) returns (ok: bool, h: Handle)
      requires Valid()
      modifies this
      ensures Valid()
      ensures ok == (name in group)
      ensures ok ==> h !in old(open) && open == old(open) + {h}
      ensures !ok ==> open == old(open)
    {
      ok := name in group;
      h := 0;
      if ok {
        h := Acquire();
      }
    }
  }

  /** A region the read accepts: an empty one (some extent is zero, so the
      selection selects nothing) wherever it lies, or one that lies inside
      the dataset's extents. */
  predicate Readable(offset: seq<nat>, count: seq<nat>, extents: seq<nat>)
  {
    Product(count) == 0 || Fits(offset, count, extents)
  }

  /** `H5Dread` of the selected on-disk region into the run of `buf` that
      begins at `start` and has the region's size. The library refuses a
      non-empty selection that does not lie inside the dataset's extents
      at this point, not when it is made; on success a region inside the
      extents fills the run in row-major order. Only the run is written;
      on failure nothing is promised about the run. */
  method Read<T>(ds: Dataset<T>, offset: seq<nat>, count: seq<nat>, buf: array<T>, start: nat, oracle: Oracle)
    returns (ok: bool)
    requires ds.Valid() && |offset| == |count| == |ds.extents|
    requires start + Product(count) <= buf.Length
    modifies buf
    ensures ok == (oracle.readOk && Readable(offset, count, ds.extents))
    ensures ok && Fits(offset, count, ds.extents) ==>
              buf[start..start + Product(count)] == Slab(ds.data, ds.extents, offset, count)
    ensures forall p :: 0 <= p < buf.Length && !(start <= p < start + Product(count)) ==> buf[p] == old(buf[p])
  {
    ok := oracle.readOk && Readable(offset, count, ds.extents);
    if ok && Fits(offset, count, ds.extents) {
      var region := Slab(ds.data, ds.extents, offset, count);
      forall k | start <= k < start + Product(count) {
        buf[k] := region[k - start];
      }
    }
  }
}

=== FILE: failures.dfy ===
/** The error kinds the accessor and its binding raise (each is a
    `std::runtime_error` with its own message in the implementation), and
    the result types that carry them. */
module Failures {

  datatype Error =
    | OpenError               // the dataset cannot be opened by name
    | TypeMismatch            // stored element type differs from the declared one
    | ExtentQueryError        // the on-disk extents cannot be read
    | DimensionMismatch       // destination rank differs from the array's rank
    | UnsupportedOrder        // destination is not in first-major order
    | ReversedDataset         // dataset carries the reverse-shape marker
    | SelectionError          // the store rejected the on-disk hyperslab
    | MemSelectionError       // the store rejected the in-memory selection
    | ReadError               // the bulk transfer failed
    | BeginSizeMismatch       // binding: `roiBegin` has the wrong length
    | EndSizeMismatch         // binding: `roiEnd` has the wrong length

  datatype Result<+R> = Success(value: R) | Failure(error: Error)

  datatype Outcome = Pass | Fail(error: Error)
}

=== FILE: hdf5_array.dfy ===
/** `Hdf5Array<T>`: a read-only accessor for rectangular regions
    (hyperslabs) of an on-disk dataset. Construction opens the dataset and
    its type handle and resolves the exposed shape once; `Subarray` checks
    the destination, selects the region on disk and in memory, and reads
    it. Every dataspace and memspace handle opened by a call is closed
    before the call returns, on every path. */
module Hdf5 {
  import opened Layout
  import opened Failures
  import opened BackingStore
  import opened MarrayView

  /** The axes of `s` in reverse order. */
  function Reverse(s: seq<nat>): (r: seq<nat>)
    ensures |r| == |s|
  {
    if s == [] then [] else Reverse(s[1..]) + [s[0]]
  }

  /** Axis `k` of the reversal is axis `|s| - 1 - k` of the original. */
  lemma {:induction false} ReverseAt(s: seq<nat>, k: nat)
    requires k < |s|
    ensures Reverse(s)[k] == s[|s| - 1 - k]
  {
    if k < |s| - 1 {
      ReverseAt(s[1..], k);
    }
  }

  /** Reversing the axis order twice gives the original order back. */
  lemma ReverseTwice(s: seq<nat>)
    ensures Reverse(Reverse(s)) == s
  {
    forall k | 0 <= k < |s|
      ensures Reverse(Reverse(s))[k] == s[k]
    {
      ReverseAt(Reverse(s), k);
      ReverseAt(s, |s| - 1 - k);
    }
  }

  /** The shape exposed to consumers: the on-disk extents, in reverse axis
      order when the dataset carries the reverse-shape marker. */
  function ExposedShape(extents: seq<nat>, reversed: bool): seq<nat>
  {
    if reversed then Reverse(extents) else extents
  }

  /** Axis `d` of the exposed shape is on-disk axis `d`, or `rank - 1 - d`
      under the reverse-shape marker. */
  lemma ExposedShapeAt(extents: seq<nat>, reversed: bool, d: nat)
    requires d < |extents|
    ensures |ExposedShape(extents, reversed)| == |extents|
    ensures ExposedShape(extents, reversed)[d] ==
            if reversed then extents[|extents| - 1 - d] else extents[d]
  {
    if reversed {
      ReverseAt(extents, d);
    }
  }

  /** Every axis of the exposed shape, as in ExposedShapeAt. */
  lemma ExposedShapeAll(extents: seq<nat>, reversed: bool)
    ensures |ExposedShape(extents, reversed)| == |extents|
    ensures forall d :: 0 <= d < |extents| ==>
              ExposedShape(extents, reversed)[d] == if reversed then extents[|extents| - 1 - d] else extents[d]
  {
    forall d | 0 <= d < |extents|
      ensures ExposedShape(extents, reversed)[d] == if reversed then extents[|extents| - 1 - d] else extents[d]
    {
      ExposedShapeAt(extents, reversed, d);
    }
  }

  /** The indexed loops of `loadShape` that write the extents into the
      resized `shape_`. */
  method ResolveShape(dims: seq<nat>, reversed: bool) returns (shape: seq<nat>)
    ensures shape == ExposedShape(dims, reversed)
  {
    var n := |dims|;
    shape := seq(n, _ => 0);
    if reversed {
      for j := 0 to n
        invariant |shape| == n
        invariant forall i :: n - j <= i < n ==> shape[i] == dims[n - 1 - i]
      {
        shape := shape[n - j - 1 := dims[j]];
      }
      forall k | 0 <= k < n
        ensures shape[k] == Reverse(dims)[k]
      {
        ReverseAt(dims, k);
      }
    } else {
      for j := 0 to n
        invariant |shape| == n
        invariant forall i :: 0 <= i < j ==> shape[i] == dims[i]
      {
        shape := shape[j := dims[j]];
      }
    }
  }

  /** The loop of `loadHyperslab` that builds the on-disk offset, the slab
      extents and the in-memory extents, in the destination's own axis
      order: nothing is reversed. */
  method CopyRegion(base: seq<nat>, outShape: seq<nat>)
    returns (offset: seq<nat>, slabShape: seq<nat>, marrayShape: seq<nat>)
    requires |base| == |outShape|
    ensures offset == base
    ensures slabShape == outShape && marrayShape == outShape
  {
    var size := |base|;
    offset, slabShape, marrayShape := Zeros(size), Zeros(size), Zeros(size);
    for j := 0 to size
      invariant |offset| == |slabShape| == |marrayShape| == size
      invariant forall i :: 0 <= i < j ==> offset[i] == base[i]
      invariant forall i :: 0 <= i < j ==> slabShape[i] == outShape[i] && marrayShape[i] == slabShape[i]
    {
      offset := offset[j := base[j]];
      slabShape := slabShape[j := outShape[j]];
      marrayShape := marrayShape[j := slabShape[j]];
    }
  }

  class Hdf5Array<T(0)> {
    /** The group the dataset was opened from (borrowed). */
    const store: Store<T>
    /** The dataset `dataset` refers to. */
    const ds: Dataset<T>
    /** `dataset_` and `datatype_`: owned for the accessor's lifetime. */
    const dataset: Handle
    const dtype: Handle
    /** `shape_`: the exposed shape, resolved once. */
    var shape: seq<nat>

    /** The owned handles are open and distinct. */
    ghost predicate Bound()
      reads this, store
    {
      store.Valid() && ds.Valid() &&
      dataset in store.open && dtype in store.open && dataset != dtype
    }

    /** A constructed accessor: handles open and the shape resolved. */
    ghost predicate Valid()
      reads this, store
    {
      Bound() && shape == ExposedShape(ds.extents, ds.reversed)
    }

    /** The member initialisation of the constructor. */
    constructor (store: Store<T>, ds: Dataset<T>, dataset: Handle, dtype: Handle)
      ensures this.store == store && this.ds == ds
      ensures this.dataset == dataset && this.dtype == dtype
      ensures shape == []
    {
      this.store, this.ds := store, ds;
      this.dataset, this.dtype := dataset, dtype;
      shape := [];
    }

    /** `dimension()`: the on-disk rank. */
    function Dimension(): (n: nat)
      reads this, store
      requires Valid()
      ensures n == |ds.extents|
    {
      |shape|
    }

    /** `shape(d)`; the implementation does not check `d`, so `d` must be
        below the rank. */
    function ShapeAt(d: nat): (e: nat)
      reads this, store
      requires Valid() && d < Dimension()
      ensures e == if ds.reversed then ds.extents[|ds.extents| - 1 - d] else ds.extents[d]
    {
      ExposedShapeAt(ds.extents, ds.reversed, d);
      shape[d]
    }

    /** `shape()`: the on-disk extents, or their reversal under the
        reverse-shape marker (so reversing it gives the extents back). */
    function Shape(): (s: seq<nat>)
      reads this, store
      requires Valid()
      ensures |s| == |ds.extents|
      ensures !ds.reversed ==> s == ds.extents
      ensures ds.reversed ==> s == Reverse(ds.extents) && Reverse(s) == ds.extents
    {
      ReverseTwice(ds.extents);
      shape
    }

    /** `loadShape`: reads the extents through a dataspace handle that is
        closed on both paths. */
    method LoadShape(oracle: Oracle) returns (ok: bool)
      requires Bound()
      modifies this`shape, store
      ensures Bound() && store.open == old(store.open)
      ensures ok == oracle.extentsOk
      ensures ok ==> shape == ExposedShape(ds.extents, ds.reversed)
      ensures !ok ==> shape == old(shape)
    {
      var filespace := store.Acquire();
      var dims := ds.extents;
      if !oracle.extentsOk {
        store.Release(filespace);
        return false;
      }
      shape := ResolveShape(dims, ds.reversed);
      store.Release(filespace);
      ok := true;
    }

    /** The destructor: closes `datatype_` and `dataset_`, once each. */
    method Destroy()
      requires Valid()
      modifies store
      ensures store.Valid()
      ensures store.open == old(store.open) - {dataset, dtype}
      ensures |store.open| == |old(store.open)| - 2
    {
      store.Release(dtype);
      store.Release(dataset);
    }

    /** A destination of this shape and order passes the checks of
        `subarray` and the reverse-marker check of `loadHyperslab`. */
    predicate Admits(outShape: seq<nat>, order: CoordinateOrder)
      reads this
    {
      |outShape| == |shape| && order == FirstMajorOrder && !ds.reversed
    }

    /** `subarray`: read the region at `origin` with the destination's
        extents into the destination. */
    method Subarray(origin: seq<nat>, out: View<T>, oracle: Oracle) returns (r: Outcome)
      requires Valid() && out.Valid()
      requires out.Dimension() == |shape| && out.order == FirstMajorOrder ==> |origin| >= out.Dimension()
      modifies store, out.data
      ensures Valid() && out.Valid()
      ensures store.open == old(store.open)
      // the checks made before any call into the store
      ensures out.Dimension() != Dimension() ==> r == Fail(DimensionMismatch)
      ensures out.Dimension() == Dimension() && out.order != FirstMajorOrder ==> r == Fail(UnsupportedOrder)
      ensures out.Dimension() == Dimension() && out.order == FirstMajorOrder && ds.reversed ==>
                r == Fail(ReversedDataset)
      ensures !Admits(out.shape, out.order) ==> unchanged(store) && unchanged(out.data)
      // the selections
      ensures Admits(out.shape, out.order) && !oracle.diskSelectOk ==> r == Fail(SelectionError)
      ensures Admits(out.shape, out.order) && oracle.diskSelectOk && !oracle.memSelectOk ==>
                r == Fail(MemSelectionError)
      ensures r.Fail? && r.error != ReadError ==> unchanged(out.data)
      // the transfer: only a simple destination is read into, and the read
      // fails on a non-empty region that leaves the dataset
      ensures Admits(out.shape, out.order) && oracle.diskSelectOk && oracle.memSelectOk ==>
                r == if out.simple && !(oracle.readOk && Readable(origin[..out.Dimension()], out.shape, ds.extents))
                     then Fail(ReadError) else Pass
      ensures Admits(out.shape, out.order) && r == Pass && out.simple ==>
                Readable(origin[..out.Dimension()], out.shape, ds.extents)
      ensures Admits(out.shape, out.order) && r == Pass && out.simple &&
              Fits(origin[..out.Dimension()], out.shape, ds.extents) ==>
                out.HoldsRun(Slab(ds.data, ds.extents, origin[..out.Dimension()], out.shape))
      ensures Admits(out.shape, out.order) && r == Pass && out.simple ==>
                forall c :: InBox(c, out.shape) ==>
                  InBox(Add(origin[..out.Dimension()], c), ds.extents) &&
                  out.At(c) == ds.At(Add(origin[..out.Dimension()], c))
      // a destination that is not simple has its cells overwritten with
      // the unspecified contents of a fresh array; on every path, storage
      // outside the destination's cells is left alone
      ensures out.KeepsOutside(old(out.data[..]))
    {
      if out.Dimension() != |shape| {
        return Fail(DimensionMismatch);
      }
      if out.order != FirstMajorOrder {
        return Fail(UnsupportedOrder);
      }
      var base := origin[..out.Dimension()];
      r := LoadHyperslab(base, out, oracle);
      if r == Pass && out.simple {
        FilledCells(ds, base, out);
      }
    }

    /** `loadHyperslab`: the region at `base` with the destination's
        extents, after `subarray`'s checks. */
    method LoadHyperslab(base: seq<nat>, out: View<T>, oracle: Oracle) returns (r: Outcome)
      requires Valid() && out.Valid()
      requires |base| == |out.shape| == |shape| && out.order == FirstMajorOrder
      modifies store, out.data
      ensures Valid()
      ensures store.open == old(store.open)
      ensures ds.reversed ==> r == Fail(ReversedDataset) && unchanged(store)
      ensures !ds.reversed && !oracle.diskSelectOk ==> r == Fail(SelectionError)
      ensures !ds.reversed && oracle.diskSelectOk && !oracle.memSelectOk ==> r == Fail(MemSelectionError)
      ensures r.Fail? && r.error != ReadError ==> unchanged(out.data)
      ensures !ds.reversed && oracle.diskSelectOk && oracle.memSelectOk ==>
                r == if out.simple && !(oracle.readOk && Readable(base, out.shape, ds.extents))
                     then Fail(ReadError) else Pass
      ensures r == Pass && out.simple ==> Readable(base, out.shape, ds.extents)
      ensures r == Pass && out.simple && Fits(base, out.shape, ds.extents) ==>
                out.HoldsRun(Slab(ds.data, ds.extents, base, out.shape))
      ensures out.KeepsOutside(old(out.data[..]))
    {
      if ds.reversed {
        return Fail(ReversedDataset);
      }
      var offset, slabShape, marrayShape := CopyRegion(base, out.shape);

      var dataspace := store.Acquire();
      if !oracle.diskSelectOk {
        store.Release(dataspace);
        return Fail(SelectionError);
      }

      var memspace := store.Acquire();
      if !oracle.memSelectOk {
        store.Release(memspace);
        store.Release(dataspace);
        return Fail(MemSelectionError);
      }

      var status := Transfer(ds, offset, slabShape, marrayShape, out, oracle);

      store.Release(memspace);
      store.Release(dataspace);
      if !status {
        return Fail(ReadError);
      }
      r := Pass;
    }
  }

  /** A simple first-major destination whose run holds a readable region
      holds, at each of its cells `c`, the dataset element at `base + c`
      (and an empty region has no cells). */
  lemma FilledCells<T(0)>(ds: Dataset<T>, base: seq<nat>, out: View<T>)
    requires ds.Valid() && out.Valid() && out.simple && out.order == FirstMajorOrder
    requires |base| == |out.shape| == |ds.extents| && Readable(base, out.shape, ds.extents)
    requires Fits(base, out.shape, ds.extents) ==> out.HoldsRun(Slab(ds.data, ds.extents, base, out.shape))
    ensures forall c :: InBox(c, out.shape) ==>
              InBox(Add(base, c), ds.extents) && out.At(c) == ds.At(Add(base, c))
  {
    forall c | InBox(c, out.shape)
      ensures InBox(Add(base, c), ds.extents) && out.At(c) == ds.At(Add(base, c))
    {
      InBoxNonEmpty(c, out.shape);
      SlabAt(ds.data, ds.extents, base, out.shape, c);
      assert out.At(c) == out.data[out.start + Flatten(c, out.shape)];
    }
  }

  /** The transfer of `loadHyperslab`. A simple destination's storage run
      is filled by one read of the selection. Any other destination is assigned a fresh
      uninitialised array of the selection's extents: no read is issued,
      so no read error can occur, and the destination's cells receive the
      fresh array's unspecified contents. */
  method Transfer<T(0)>(ds: Dataset<T>, offset: seq<nat>, slabShape: seq<nat>, marrayShape: seq<nat>,
                       out: View<T>, oracle: Oracle)
    returns (status: bool)
    requires ds.Valid() && out.Valid()
    requires |offset| == |ds.extents| && slabShape == marrayShape == out.shape
    requires |out.shape| == |ds.extents| && out.order == FirstMajorOrder
    modifies out.data
    ensures out.Valid()
    ensures status == (!out.simple || (oracle.readOk && Readable(offset, slabShape, ds.extents)))
    ensures out.simple && status && Fits(offset, slabShape, ds.extents) ==>
              out.HoldsRun(Slab(ds.data, ds.extents, offset, slabShape))
    ensures out.KeepsOutside(old(out.data[..]))
  {
    status := true;
    if out.simple {
      out.RunIsCells();
      status := Read(ds, offset, slabShape, out.data, out.start, oracle);
    } else {
      var tmpOut := new View<T>(marrayShape);
      out.Assign(tmpOut);
    }
  }

  /** The constructor as written: opens the dataset and its type handle,
      checks the element type and resolves the shape. A failed extent query
      in `loadShape` propagates out of the constructor after both handles
      are open, and neither is closed; so does a type comparison that
      reports inequality (`typeMatches` false). */
  method Open<T(0)>(store: Store<T>, name: string, oracle: Oracle) returns (r: Result<Hdf5Array<T>>)
    requires store.Valid()
    modifies store
    ensures store.Valid()
    ensures name !in store.group ==> r == Failure(OpenError) && store.open == old(store.open)
    ensures name in store.group && !oracle.typeMatches ==> r == Failure(TypeMismatch)
    ensures name in store.group && oracle.typeMatches && !oracle.extentsOk ==> r == Failure(ExtentQueryError)
    ensures name in store.group && r.Failure? ==>
              old(store.open) < store.open && |store.open| == |old(store.open)| + 2
    ensures r.Success? <==> name in store.group && oracle.typeMatches && oracle.extentsOk
    ensures r.Success? ==>
              fresh(r.value) && r.value.Valid() &&
              r.value.store == store && r.value.ds == store.group[name] &&
              r.value.Dimension() == |store.group[name].extents| &&
              r.value.dataset !in old(store.open) && r.value.dtype !in old(store.open) &&
              store.open == old(store.open) + {r.value.dataset, r.value.dtype} &&
              |store.open| == |old(store.open)| + 2
  {
    var found, dataset := store.OpenDataset(name);
    if !found {
      return Failure(OpenError);
    }
    var dtype := store.Acquire();
    if !oracle.typeMatches {
      return Failure(TypeMismatch);
    }
    var a := new Hdf5Array(store, store.group[name], dataset, dtype);
    var loaded := a.LoadShape(oracle);
    if !loaded {
      return Failure(ExtentQueryError);
    }
    r := Success(a);
  }

  /** Construction as intended: the same steps, but a failure closes the
      handles already opened, so a failed construction leaves the handle
      table as it found it. */
  method OpenReleasing<T(0)>(store: Store<T>, name: string, oracle: Oracle) returns (r: Result<Hdf5Array<T>>)
    requires store.Valid()
    modifies store
    ensures store.Valid()
    ensures name !in store.group ==> r == Failure(OpenError)
    ensures name in store.group && !oracle.typeMatches ==> r == Failure(TypeMismatch)
    ensures name in store.group && oracle.typeMatches && !oracle.extentsOk ==> r == Failure(ExtentQueryError)
    ensures r.Failure? ==> store.open == old(store.open)
    ensures r.Success? <==> name in store.group && oracle.typeMatches && oracle.extentsOk
    ensures r.Success? ==>
              fresh(r.value) && r.value.Valid() &&
              r.value.store == store && r.value.ds == store.group[name] &&
              r.value.Dimension() == |store.group[name].extents| &&
              r.value.dataset !in old(store.open) && r.value.dtype !in old(store.open) &&
              store.open == old(store.open) + {r.value.dataset, r.value.dtype} &&
              |store.open| == |old(store.open)| + 2
  {
    var found, dataset := store.OpenDataset(name);
    if !found {
      return Failure(OpenError);
    }
    var dtype := store.Acquire();
    if !oracle.typeMatches {
      store.Release(dtype);
      store.Release(dataset);
      return Failure(TypeMismatch);
    }
    var a := new Hdf5Array(store, store.group[name], dataset, dtype);
    var loaded := a.LoadShape(oracle);
    if !loaded {
      store.Release(dtype);
      store.Release(dataset);
      return Failure(ExtentQueryError);
    }
    r := Success(a);
  }

  /** Opening an accessor and destroying it leaves the handle table as it
      found it. */
  method OpenThenDestroy<T(0)>(store: Store<T>, name: string, oracle: Oracle) returns (ok: bool)
    requires store.Valid()
    modifies store
    ensures ok == (name in store.group && oracle.typeMatches && oracle.extentsOk)
    ensures ok ==> store.open == old(store.open)
  {
    var r := Open(store, name, oracle);
    ok := r.Success?;
    if ok {
      r.value.Destroy();
    }
  }

  /** A concrete failed construction: a dataset of extents 2 x 3 whose
      extent query fails leaves two more handles open than before. */
  method ExtentQueryLeaks() returns (leaked: int)
    ensures leaked == 2
  {
    var volume := Dataset([2, 3], false, [0, 1, 2, 3, 4, 5]);
    assert Product([2, 3]) == 6;
    var store := new Store<int>(map["volume" := volume]);
    var before := |store.open|;
    var r := Open(store, "volume", Oracle(true, false, true, true, true));
    leaked := |store.open| - before;
  }

  /** The same failure through the corrected construction leaks nothing. */
  method ExtentQueryReleases() returns (leaked: int)
    ensures leaked == 0
  {
    var volume := Dataset([2, 3], false, [0, 1, 2, 3, 4, 5]);
    assert Product([2, 3]) == 6;
    var store := new Store<int>(map["volume" := volume]);
    var before := |store.open|;
    var r := OpenReleasing(store, "volume", Oracle(true, false, true, true, true));
    leaked := |store.open| - before;
  }
}

=== FILE: hdf5_binding.dfy ===
/** The scripting-language binding of `Hdf5Array`: the read-only `ndim`
    and `shape` properties, and `subarray(roiBegin, roiEnd)`, which turns
    two corner points into an origin and an extent, allocates a fresh
    array of that extent and fills it through `Hdf5Array.Subarray`. */
module Hdf5Binding {
  import opened Layout
  import opened Failures
  import opened BackingStore
  import opened MarrayView
  import opened Hdf5

  /** `size_t`: the binding converts its arguments to 64-bit unsigned
      integers before the body runs. */
  newtype u64 = x: int | 0 <= x < TwoTo64

  /** The same values as unbounded naturals. */
  function Widen(s: seq<u64>): (r: seq<nat>)
    ensures |r| == |s| && forall i :: 0 <= i < |s| ==> r[i] == s[i] as nat
  {
    seq(|s|, i requires 0 <= i < |s| => s[i] as nat)
  }

  /** The `ndim` property: the on-disk rank. */
  function Ndim<T(0)>(arr: Hdf5Array<T>): (n: nat)
    reads arr, arr.store
    requires arr.Valid()
    ensures n == |arr.ds.extents|
  {
    arr.Dimension()
  }

  /** The `shape` property: the on-disk extents, axis for axis, or in
      reverse axis order under the reverse-shape marker. */
  function ShapeProperty<T(0)>(arr: Hdf5Array<T>): (s: seq<nat>)
    reads arr, arr.store
    requires arr.Valid()
    ensures |s| == |arr.ds.extents|
    ensures forall d :: 0 <= d < |s| ==>
              s[d] == if arr.ds.reversed then arr.ds.extents[|s| - 1 - d] else arr.ds.extents[d]
  {
    ExposedShapeAll(arr.ds.extents, arr.ds.reversed);
    arr.Shape()
  }

  /** The loop `shape[d] = roiEnd[d] - roiBegin[d]` in `size_t`
      arithmetic: the exact difference when the end is not below the
      begin, and otherwise the difference wrapped modulo 2^64. */
  method RegionShape(roiBegin: seq<u64>, roiEnd: seq<u64>) returns (shape: seq<u64>)
    requires |roiBegin| == |roiEnd|
    ensures |shape| == |roiBegin|
    ensures forall d :: 0 <= d < |shape| && roiBegin[d] <= roiEnd[d] ==>
              roiBegin[d] as int + shape[d] as int == roiEnd[d] as int
    ensures forall d :: 0 <= d < |shape| && roiEnd[d] < roiBegin[d] ==>
              roiBegin[d] as int + shape[d] as int == roiEnd[d] as int + TwoTo64
  {
    var dim := |roiBegin|;
    shape := seq(dim, _ => 0);
    for d := 0 to dim
      invariant |shape| == dim
      invariant forall i :: 0 <= i < d && roiBegin[i] <= roiEnd[i] ==>
                  roiBegin[i] as int + shape[i] as int == roiEnd[i] as int
      invariant forall i :: 0 <= i < d && roiEnd[i] < roiBegin[i] ==>
                  roiBegin[i] as int + shape[i] as int == roiEnd[i] as int + TwoTo64
    {
      shape := shape[d := ((roiEnd[d] as int - roiBegin[d] as int) % TwoTo64) as u64];
    }
  }

  /** Every axis of the region lies inside the extents exactly when no end
      is below its begin and no end exceeds the extent: a wrapped extent
      always runs past the dataset. */
  lemma EndpointsFit(roiBegin: seq<u64>, roiEnd: seq<u64>, shape: seq<u64>, extents: seq<nat>)
    requires |roiBegin| == |roiEnd| == |shape| == |extents|
    requires forall d :: 0 <= d < |extents| ==> extents[d] < TwoTo64
    requires forall d :: 0 <= d < |shape| && roiBegin[d] <= roiEnd[d] ==>
               roiBegin[d] as int + shape[d] as int == roiEnd[d] as int
    requires forall d :: 0 <= d < |shape| && roiEnd[d] < roiBegin[d] ==>
               roiBegin[d] as int + shape[d] as int == roiEnd[d] as int + TwoTo64
    ensures Fits(Widen(roiBegin), Widen(shape), extents) <==>
            forall d :: 0 <= d < |extents| ==> roiBegin[d] <= roiEnd[d] && roiEnd[d] as int <= extents[d]
  {
    var begin, count := Widen(roiBegin), Widen(shape);
    if Fits(begin, count, extents) {
      forall d | 0 <= d < |extents|
        ensures roiBegin[d] <= roiEnd[d] && roiEnd[d] as int <= extents[d]
      {
        assert begin[d] + count[d] <= extents[d];
      }
    }
  }

  /** The computed region is empty exactly when some end equals its begin:
      a wrapped extent is never zero. */
  lemma EmptyRegion(roiBegin: seq<u64>, roiEnd: seq<u64>, shape: seq<u64>)
    requires |roiBegin| == |roiEnd| == |shape|
    requires forall d :: 0 <= d < |shape| && roiBegin[d] <= roiEnd[d] ==>
               roiBegin[d] as int + shape[d] as int == roiEnd[d] as int
    requires forall d :: 0 <= d < |shape| && roiEnd[d] < roiBegin[d] ==>
               roiBegin[d] as int + shape[d] as int == roiEnd[d] as int + TwoTo64
    ensures Product(Widen(shape)) == 0 <==> exists d :: 0 <= d < |shape| && roiBegin[d] == roiEnd[d]
  {
    var count := Widen(shape);
    ProductZero(count);
    if exists d :: 0 <= d < |shape| && roiBegin[d] == roiEnd[d] {
      var d :| 0 <= d < |shape| && roiBegin[d] == roiEnd[d];
      assert count[d] == 0;
    }
  }

  /** The `subarray(roiBegin, roiEnd)` method: the region from `roiBegin`
      up to, not including, `roiEnd`, read into a fresh array. */
  method Subarray<T(0)>(arr: Hdf5Array<T>, roiBegin: seq<u64>, roiEnd: seq<u64>, oracle: Oracle)
    returns (r: Result<View<T>>)
    requires arr.Valid()
    modifies arr.store
    ensures arr.Valid() && arr.store.open == old(arr.store.open)
    ensures |roiBegin| != arr.Dimension() ==> r == Failure(BeginSizeMismatch)
    ensures |roiBegin| == arr.Dimension() && |roiEnd| != arr.Dimension() ==> r == Failure(EndSizeMismatch)
    ensures ((exists d :: 0 <= d < |roiBegin| && d < |roiEnd| && roiEnd[d] < roiBegin[d]) &&
             (forall d :: 0 <= d < |roiBegin| && d < |roiEnd| ==> roiBegin[d] != roiEnd[d])) ==>
              r.Failure?
    ensures r.Success? <==>
              |roiBegin| == |roiEnd| == arr.Dimension() && !arr.ds.reversed &&
              ((exists d :: 0 <= d < |roiBegin| && roiBegin[d] == roiEnd[d]) ||
               (forall d :: 0 <= d < |roiBegin| ==>
                  roiBegin[d] <= roiEnd[d] && roiEnd[d] as int <= arr.ds.extents[d])) &&
              oracle.diskSelectOk && oracle.memSelectOk && oracle.readOk
    ensures r.Success? ==>
              fresh(r.value) && r.value.Valid() && r.value.simple &&
              r.value.start == 0 && r.value.data.Length == Product(r.value.shape) &&
              |r.value.shape| == |roiBegin| &&
              (forall d :: 0 <= d < |roiBegin| && roiBegin[d] <= roiEnd[d] ==>
                 roiBegin[d] as int + r.value.shape[d] == roiEnd[d] as int) &&
              (forall d :: 0 <= d < |roiBegin| && roiEnd[d] < roiBegin[d] ==>
                 roiBegin[d] as int + r.value.shape[d] == roiEnd[d] as int + TwoTo64) &&
              Readable(Widen(roiBegin), r.value.shape, arr.ds.extents)
    ensures r.Success? && Fits(Widen(roiBegin), r.value.shape, arr.ds.extents) ==>
              r.value.data[..] == Slab(arr.ds.data, arr.ds.extents, Widen(roiBegin), r.value.shape)
    ensures r.Success? ==>
              forall c :: InBox(c, r.value.shape) ==>
                InBox(Add(Widen(roiBegin), c), arr.ds.extents) &&
                r.value.At(c) == arr.ds.At(Add(Widen(roiBegin), c))
  {
    var dim := arr.Dimension();
    if |roiBegin| != dim {
      return Failure(BeginSizeMismatch);
    }
    if |roiEnd| != dim {
      return Failure(EndSizeMismatch);
    }
    var shape := RegionShape(roiBegin, roiEnd);
    EndpointsFit(roiBegin, roiEnd, shape, arr.ds.extents);
    EmptyRegion(roiBegin, roiEnd, shape);
    var out := new View<T>(Widen(shape));
    var origin := Widen(roiBegin);
    assert origin[..|out.shape|] == origin;
    var outcome := arr.Subarray(origin, out, oracle);
    assert out.data[0..out.data.Length] == out.data[..];
    if outcome.Fail? {
      return Failure(outcome.error);
    }
    r := Success(out);
  }

  /** A concrete empty region outside the dataset: `subarray([7], [7])` on a
      dataset of extent 5 yields an empty array, because an empty selection
      is read wherever it lies. */
  method EmptyRegionOutside() returns (cells: int)
    ensures cells == 0
  {
    var line := Dataset([5], false, [0, 1, 2, 3, 4]);
    assert Product([5]) == 5;
    var store := new Store<int>(map["line" := line]);
    var oracle := Oracle(true, true, true, true, true);
    var made := Open(store, "line", oracle);
    if made.Success? {
      var r := Subarray(made.value, [7], [7], oracle);
      if r.Success? {
        cells := r.value.data.Length;
      } else {
        cells := -1;
      }
    } else {
      cells := -1;
    }
  }
}

=== FILE: layout.dfy ===
/** Row-major ("first-major", C-order) addressing of a multi-dimensional box:
    the number of cells in a shape, the linear index of a coordinate, its
    inverse, and the row-major contents of a rectangular region (a hyperslab)
    of a larger array. */
module Layout {

  /** One more than the largest value of a 64-bit unsigned integer
      (`hsize_t`, `size_t`, `uint64_t`). */
  const TwoTo64: int := 0x1_0000_0000_0000_0000

  /** Number of cells of a box with the given extents. */
  function Product(s: seq<nat>): nat
  {
    if |s| == 0 then 1 else s[0] * Product(s[1..])
  }

  /** The coordinate `c` lies inside the box with extents `s`. */
  predicate InBox(c: seq<nat>, s: seq<nat>)
  {
    |c| == |s| && forall i :: 0 <= i < |s| ==> c[i] < s[i]
  }

  /** The box at `origin` with extents `count` lies inside the box `extents`. */
  predicate Fits(origin: seq<nat>, count: seq<nat>, extents: seq<nat>)
  {
    |origin| == |count| == |extents| &&
    forall d :: 0 <= d < |extents| ==> origin[d] + count[d] <= extents[d]
  }

  /** `n` zeros: the offset of a selection that starts at the origin. */
  function Zeros(n: nat): (z: seq<nat>)
    ensures |z| == n && forall i :: 0 <= i < n ==> z[i] == 0
  {
    seq(n, _ => 0)
  }

  /** Coordinate-wise sum. */
  function Add(a: seq<nat>, b: seq<nat>): (r: seq<nat>)
    requires |a| == |b|
    ensures |r| == |a| && forall i :: 0 <= i < |a| ==> r[i] == a[i] + b[i]
  {
    seq(|a|, i requires 0 <= i < |a| => a[i] + b[i])
  }

  /** A box has no cells exactly when one of its extents is zero. */
  lemma {:induction false} ProductZero(s: seq<nat>)
    ensures Product(s) == 0 <==> exists d :: 0 <= d < |s| && s[d] == 0
  {
    if |s| > 0 {
      ProductZero(s[1..]);
      if Product(s) == 0 && s[0] != 0 {
        var d :| 0 <= d < |s| - 1 && s[1..][d] == 0;
        assert s[d + 1] == 0;
      }
      if (exists d :: 0 <= d < |s| && s[d] == 0) && s[0] != 0 {
        var d :| 0 <= d < |s| && s[d] == 0;
        assert s[1..][d - 1] == 0;
      }
    }
  }

  /** A box that holds a coordinate has at least one cell. */
  lemma {:induction false} InBoxNonEmpty(c: seq<nat>, s: seq<nat>)
    requires InBox(c, s)
    ensures Product(s) > 0
  {
    if |s| > 0 {
      assert InBox(c[1..], s[1..]);
      InBoxNonEmpty(c[1..], s[1..]);
    }
  }

  /** Row-major linear index of coordinate `c` in a box with extents `s`:
      the last axis varies fastest. */
  function Flatten(c: seq<nat>, s: seq<nat>): nat
    requires |c| == |s|
  {
    if |s| == 0 then 0 else c[0] * Product(s[1..]) + Flatten(c[1..], s[1..])
  }

  lemma MulMonotone(a: nat, b: nat, p: nat)
    requires a <= b
    ensures a * p <= b * p
  {
    assert b * p == a * p + (b - a) * p;
  }

  /** A row `q < n` of `p` cells, plus an offset below `p`, stays below `n * p`. */
  lemma RowBelow(q: nat, n: nat, p: nat, r: nat)
    requires q < n && r < p
    ensures q * p + r < n * p
  {
    MulMonotone(q + 1, n, p);
  }

  lemma PositiveFactor(k: nat, n: nat, p: nat)
    requires k < n * p
    ensures p > 0
  {
  }

  lemma DivBelow(k: nat, p: nat, n: nat)
    requires 0 < p && k < n * p
    ensures k / p < n
  {
    if k / p >= n {
      MulMonotone(n, k / p, p);
    }
  }

  lemma DivModSplit(k: nat, p: nat)
    requires 0 < p
    ensures (k / p) * p + k % p == k && k % p < p
  {
  }

  lemma DivModOfSum(q: nat, r: nat, p: nat)
    requires r < p
    ensures (q * p + r) / p == q && (q * p + r) % p == r
  {
    var x := q * p + r;
    var d, m := x / p, x % p;
    assert x == d * p + m;
    if d < q {
      MulMonotone(d + 1, q, p);
    } else if d > q {
      MulMonotone(q + 1, d, p);
    }
  }

  /** Inverse of Flatten: the coordinate of linear index `k`. */
  function Unflatten(k: nat, s: seq<nat>): (c: seq<nat>)
    requires k < Product(s)
    ensures |c| == |s|
    decreases |s|
  {
    if |s| == 0 then []
    else
      var p := Product(s[1..]);
      PositiveFactor(k, s[0], p);
      DivModSplit(k, p);
      [k / p] + Unflatten(k % p, s[1..])
  }

  /** A coordinate inside the box has a linear index inside the box. */
  lemma {:induction false} FlattenInRange(c: seq<nat>, s: seq<nat>)
    requires InBox(c, s)
    ensures Flatten(c, s) < Product(s)
  {
    if |s| > 0 {
      assert InBox(c[1..], s[1..]);
      FlattenInRange(c[1..], s[1..]);
      RowBelow(c[0], s[0], Product(s[1..]), Flatten(c[1..], s[1..]));
    }
  }

  /** Every linear index of the box names a coordinate inside it, and
      flattening that coordinate gives the index back. */
  lemma {:induction false} UnflattenThenFlatten(k: nat, s: seq<nat>)
    requires k < Product(s)
    ensures InBox(Unflatten(k, s), s)
    ensures Flatten(Unflatten(k, s), s) == k
    decreases |s|
  {
    if |s| > 0 {
      var p := Product(s[1..]);
      PositiveFactor(k, s[0], p);
      DivModSplit(k, p);
      var q, rest := k / p, Unflatten(k % p, s[1..]);
      var c := Unflatten(k, s);
      assert c == [q] + rest;
      assert c[1..] == rest;
      UnflattenThenFlatten(k % p, s[1..]);
      DivBelow(k, p, s[0]);
      assert Flatten(c, s) == q * p + Flatten(rest, s[1..]);
    }
  }

  /** Flattening is injective on the box: unflattening the index of a
      coordinate gives the coordinate back. */
  lemma {:induction false} FlattenThenUnflatten(c: seq<nat>, s: seq<nat>)
    requires InBox(c, s)
    ensures Flatten(c, s) < Product(s)
    ensures Unflatten(Flatten(c, s), s) == c
    decreases |s|
  {
    FlattenInRange(c, s);
    if |s| > 0 {
      var p := Product(s[1..]);
      var rest := Flatten(c[1..], s[1..]);
      assert InBox(c[1..], s[1..]);
      FlattenInRange(c[1..], s[1..]);
      FlattenThenUnflatten(c[1..], s[1..]);
      DivModOfSum(c[0], rest, p);
      assert c == [c[0]] + c[1..];
    }
  }

  /** The element of a row-major array `data` with extents `extents` that the
      `k`-th cell of the region at `origin` with extents `count` refers to. */
  function RegionCell<T>(data: seq<T>, extents: seq<nat>, origin: seq<nat>, count: seq<nat>, k: nat): T
    requires |data| == Product(extents) && Fits(origin, count, extents)
    requires k < Product(count)
  {
    UnflattenThenFlatten(k, count);
    var at := Add(origin, Unflatten(k, count));
    assert InBox(at, extents);
    FlattenInRange(at, extents);
    data[Flatten(at, extents)]
  }

  /** Row-major contents of the region at `origin` with extents `count` of
      the row-major array `data` whose extents are `extents`. */
  function Slab<T>(data: seq<T>, extents: seq<nat>, origin: seq<nat>, count: seq<nat>): (r: seq<T>)
    requires |data| == Product(extents) && Fits(origin, count, extents)
    ensures |r| == Product(count)
  {
    seq(Product(count), k requires 0 <= k < Product(count) => RegionCell(data, extents, origin, count, k))
  }

  /** Cell `c` of a region holds the element at `origin + c` of the whole array. */
  lemma SlabAt<T>(data: seq<T>, extents: seq<nat>, origin: seq<nat>, count: seq<nat>, c: seq<nat>)
    requires |data| == Product(extents) && Fits(origin, count, extents)
    requires InBox(c, count)
    ensures InBox(Add(origin, c), extents)
    ensures Flatten(c, count) < Product(count)
    ensures Flatten(Add(origin, c), extents) < |data|
    ensures Slab(data, extents, origin, count)[Flatten(c, count)] == data[Flatten(Add(origin, c), extents)]
  {
    FlattenThenUnflatten(c, count);
    FlattenInRange(Add(origin, c), extents);
  }

  /** The region at the origin spanning the whole array is the whole array. */
  lemma WholeSlab<T>(data: seq<T>, extents: seq<nat>)
    requires |data| == Product(extents)
    ensures Fits(Zeros(|extents|), extents, extents)
    ensures Slab(data, extents, Zeros(|extents|), extents) == data
  {
    var z := Zeros(|extents|);
    var r := Slab(data, extents, z, extents);
    forall k | 0 <= k < |data|
      ensures r[k] == data[k]
    {
      UnflattenThenFlatten(k, extents);
      assert Add(z, Unflatten(k, extents)) == Unflatten(k, extents);
    }
  }
}

=== FILE: marray_view.dfy ===
/** The destination of a read: a multi-dimensional view with its own
    shape, coordinate order and storage. Only what the accessor consults
    is modelled: the shape, the coordinate order, whether the view is
    simple (its cells form one unbroken run of its storage), the storage
    the view refers to, where in that storage the view starts, and which
    storage cell each coordinate addresses. */
module MarrayView {
  import opened Layout

  /** `FirstMajorOrder` is row-major (C order): the first coordinate varies
      slowest. */
  datatype CoordinateOrder = FirstMajorOrder | LastMajorOrder

  class View<T(0)> {
    var shape: seq<nat>
    var order: CoordinateOrder
    var simple: bool
    var data: array<T>
    /** The geometry of the view (its offset and strides): `cells[k]` is
        the storage index of the coordinate whose row-major index is `k`. */
    var cells: seq<nat>
    /** The storage index of the view's first element (its data pointer,
        as an offset into the storage). */
    var start: nat

    /** Every coordinate addresses its own cell of the storage. The cells
        of a simple view are exactly the run of storage that begins at
        `start`, and a simple first-major view holds them in row-major
        order. */
    ghost predicate Valid()
      reads this
    {
      |cells| == Product(shape) &&
      (forall k :: 0 <= k < |cells| ==> cells[k] < data.Length) &&
      (forall i, j :: 0 <= i < j < |cells| ==> cells[i] != cells[j]) &&
      (simple ==> start + Product(shape) <= data.Length &&
                  forall k :: 0 <= k < |cells| ==> start <= cells[k] < start + Product(shape)) &&
      (simple && order == FirstMajorOrder ==> forall k :: 0 <= k < |cells| ==> cells[k] == start + k)
    }

    /** A freshly allocated, simple, first-major view of the given shape
        (an `Marray` or the binding's numpy-backed `PyView`); its contents
        are unspecified. */
    constructor (shape: seq<nat>)
      ensures Valid() && this.shape == shape
      ensures simple && order == FirstMajorOrder
      ensures fresh(data) && data.Length == Product(shape) && start == 0
    {
      this.shape := shape;
      order, simple := FirstMajorOrder, true;
      data := new T[Product(shape)];
      cells := seq(Product(shape), k => k);
      start := 0;
    }

    function Dimension(): nat
      reads this
    {
      |shape|
    }

    /** The run of storage that begins at `start` holds `s`. */
    ghost predicate HoldsRun(s: seq<T>)
      reads this, data
    {
      start + |s| <= data.Length && data[start..start + |s|] == s
    }

    /** Every storage index in the run of a simple first-major view is one
        of the view's cells. */
    lemma RunIsCells()
      requires Valid() && simple && order == FirstMajorOrder
      ensures forall p :: start <= p < start + Product(shape) ==> p in cells
    {
      forall p | start <= p < start + Product(shape)
        ensures p in cells
      {
        assert cells[p - start] == p;
      }
    }

    /** Relative to the earlier storage contents `before`, only the view's
        own cells may differ. */
    ghost predicate KeepsOutside(before: seq<T>)
      reads this, data
    {
      |before| == data.Length &&
      forall p :: 0 <= p < data.Length && p !in cells ==> data[p] == before[p]
    }

    /** The element at coordinate `c`. */
    function At(c: seq<nat>): T
      reads this, data
      requires Valid() && InBox(c, shape)
    {
      FlattenInRange(c, shape);
      data[cells[Flatten(c, shape)]]
    }

    /** Assignment to a view that already has storage (`View::operator=`):
        the shapes must agree, every cell of this view receives the element
        at the same coordinate of `src`, and the view keeps its storage,
        shape and order; storage outside its cells is untouched. */
    method Assign(src: View<T>)
      requires Valid() && src.Valid() && src.shape == shape && src.data != data
      modifies data
      ensures Valid()
      ensures forall c :: InBox(c, shape) ==> At(c) == src.At(c)
      ensures KeepsOutside(old(data[..]))
    {
      forall k | 0 <= k < |cells| {
        data[cells[k]] := src.data[src.cells[k]];
      }
      forall c | InBox(c, shape)
        ensures At(c) == src.At(c)
      {
        FlattenInRange(c, shape);
      }
    }
  }
}
